=== FILE: README.md ===
# ga-beacon request handling, modelled in Dafny

ga-beacon is a tracking-pixel relay. A request for `/account/page` is
answered with an image (a GIF pixel or an SVG/GIF badge). Unless the visitor
has no client id, it is also reported as a Google Analytics pageview. The
visitor keeps a client id in a `cid` cookie, which is issued on the first
hit. A request for `/account` alone gets the account's landing page, and a
request without an account is redirected to the project page.

This project models the per-request decision of `handler`, `logHit` and
`generateUUID` in `ga-beacon.go` as pure functions:

- `options.dfy` (`Options`): the `Option` type.
- `text.dfy` (`Text`): the Go string primitives the handler uses.
  `strings.Trim(s, "/")` is `Trim`, `strings.SplitN(s, "/", 2)` is `Split`,
  `strings.Index` is `Index` and `strings.Replace(s, old, "", 1)` is
  `RemoveFirst`.
- `uuid.dfy` (`Uuid`): the client id. Byte 6 is shaped to the version nibble
  of section 4.1.3 of RFC 4122 and byte 8 to the variant bits of section
  4.1.1. The bytes are then rendered with `hex.EncodeToString`, and `HexDecode`
  is its inverse.
- `payload.dfy` (`Payload`): the event payload. Six default fields are
  built, and then every query key is laid over them.
- `assets.dfy` (`Assets`): the precedence chain that picks one of the five
  image blobs and its content type.
- `beacon.dfy` (`Beacon`, `BeaconLaws`): routing, referer substitution, the
  client-id decision and the whole handler `Handle`. Its result is a
  `Response`: a redirect, a landing page, or an image with an optional
  `Set-Cookie`, its headers, an optional report and the asset. `BeaconLaws`
  holds the properties that relate several requests.

The handler takes these facts as inputs:

- the parsed query, as `map<string, seq<string>>`;
- the `cid` cookie value, if there is one;
- the `Referer` and `User-Agent` headers;
- the remote address;
- the current time, already formatted;
- the sixteen random bytes, or `None` when the random source fails.

Notes on the code's behaviour:

- The referer loses its first `http://` and then its first `https://`,
  wherever each stands, not only a leading scheme
  (`BeaconLaws.StripSchemeCutsInside`).
- With `useReferer`, the account is the first segment of the requested path,
  not the whole path. The rest of the path stays in front of the referer in
  the page (`BeaconLaws.RefererExtendsPage`).
- The masks `(b | 0x40) & 0x4F` and `(b | 0x80) & 0xBF` do set exactly the
  RFC 4122 version-4 nibble and `10` variant bits, and keep the other bits
  (`Uuid.ShapeIsMaskThenSet`).
- A `cid` cookie with an empty value counts as present. The client id is then
  empty, so no cookie is issued and no hit is reported.

## Model

| member | source | states |
|---|---|---|
| Text.Trim | ga-beacon.go:145 | the trimmed path is no longer than the path and neither starts nor ends with `/` |
| Text.TrimIsSlice | ga-beacon.go:145 | the trimmed path is the stretch of the path that starts right after its leading separators, character for character |
| Text.TrimDropsSlashes | ga-beacon.go:145 | everything before and after that stretch is a separator, so trimming removes only outer separators |
| Text.TrimEmpty | ga-beacon.go:145 | the trimmed path is empty exactly when the path is all separators |
| Text.TrimPadded | ga-beacon.go:145 | adding a `/` at either end of a path does not change the trimmed path |
| Text.Index | ga-beacon.go:158 | the reported position is an occurrence with none before it; `None` means the pattern occurs nowhere |
| Text.Split | ga-beacon.go:145 | one or two segments; the first holds no `/`; joining them with `/` gives the input back; there are two exactly when the input holds a `/` |
| Text.RemoveFirst | ga-beacon.go:158 | with no occurrence the string is unchanged; otherwise putting the pattern back at the first occurrence gives the input |
| Uuid.ShapeVersion | ga-beacon.go:101 | byte 6 gets high nibble 4 and keeps its low nibble |
| Uuid.ShapeVariant | ga-beacon.go:100 | byte 8 gets top bits `10` and keeps its low six bits |
| Uuid.Shape | ga-beacon.go:100-101 | the shaped block carries version 4 and variant `10`; bytes 6 and 8 keep their random bits; every other byte is unchanged |
| Uuid.ShapeIsMaskThenSet | ga-beacon.go:100-101 | the source's OR-then-AND masks equal "keep the random bits, then set the fixed ones" |
| Uuid.ShapeFixedPoints | ga-beacon.go:100-101 | shaping is idempotent; its fixed points are exactly the blocks that already carry version 4 and variant `10` |
| Uuid.HexEncode | ga-beacon.go:102 | the rendering has two characters per byte, all in `[0-9a-f]` |
| Uuid.HexRoundTrip | ga-beacon.go:102 | decoding the rendering of any bytes returns those bytes |
| Uuid.HexDecodeOnlyRenderings | ga-beacon.go:102 | a string decodes to some bytes only when it is their rendering |
| Uuid.NewClientId | ga-beacon.go:93-104 | a fresh id is 32 lower-case hex characters that decode to the shaped random bytes |
| Payload.Defaults | ga-beacon.go:128-135 | the default payload has exactly the keys `v`, `t`, `tid`, `cid`, `dp`, `uip` |
| Payload.Compose | ga-beacon.go:128-139 | the key set is defaults plus query keys; every query key maps to exactly its query values; every default key the query does not name keeps its default value |
| Payload.Overlay | ga-beacon.go:137-139 | the overlay loop, taking keys in any order, replaces or adds each query key and leaves the other defaults alone |
| Payload.ComposeByLoop | ga-beacon.go:128-139 | the loop in any key order yields the payload `Compose` describes |
| Payload.EmptyQueryGivesDefaults | ga-beacon.go:128-139 | an empty query yields exactly the defaults |
| Payload.OverlayInBatches | ga-beacon.go:137-139 | overlaying two query maps one after the other equals overlaying their union once |
| Assets.ContentType | ga-beacon.go:206-221 | `image/gif` exactly for the pixel, the GIF badge and the flat GIF badge; `image/svg+xml` exactly for the two SVG badges |
| Assets.Select | ga-beacon.go:206-221 | each asset is chosen exactly when its flag is present and no flag of higher precedence is; the SVG badge is chosen exactly when none is present |
| Assets.SelectIsFirstPresent | ga-beacon.go:206-221 | the if/else chain equals taking the first present flag of the list `pixel`, `gif`, `flat`, `flat-gif` |
| Assets.LowerFlagsDoNotMatter | ga-beacon.go:206-221 | once a flag decides, adding flags of lower precedence never changes the choice |
| Beacon.StripScheme | ga-beacon.go:158 | a referer containing neither `http://` nor `https://` is left unchanged; otherwise the first `http://` is cut out where it first occurs, and then the first `https://` of what remains, with everything else kept in order; stripping never lengthens the referer |
| Beacon.RouteOf | ga-beacon.go:145-180 | redirect exactly for an all-separator path; otherwise the account is the non-empty first segment of the trimmed path and holds no `/`; landing exactly for a single segment without referer substitution; without substitution account + `/` + page is the trimmed path; with it the page is the rest of the path followed by `/` when the path has a second segment, then the stripped referer |
| Beacon.SplitAppend | ga-beacon.go:162 | re-splitting `path + "/" + referer` always gives two segments, keeps the path's first segment, and ends the page with the referer |
| Beacon.Identify | ga-beacon.go:183-194 | an existing cookie is used verbatim and issues nothing; without one a 32-character id is made and a `cid` cookie with path `/` + account is issued; if the random source fails the id is empty |
| Beacon.Track | ga-beacon.go:196-221 | an image is always written with the selected asset and its content type; the report and the `CID`, `Cache-Control` and `Expires` headers are present exactly when the id is non-empty; with a report these three and `Content-Type` are the only headers, and without one `Content-Type` is the only header, in both cases besides `Set-Cookie`, which the model keeps in `setCookie`; the report carries the composed payload and the caller's user agent |
| Beacon.Handle | ga-beacon.go:144-222 | redirect exactly for an all-separator path; landing with the raw referer exactly for a single segment without substitution; an image is written only for a routed hit, and its report carries the payload composed from that hit's account and page, the client id, the remote address and the query, with the caller's user agent; an image with a report carries exactly `Cache-Control` (the fixed no-cache value), `Expires` (the request time), `CID` and `Content-Type`, and one without a report only `Content-Type`, besides `Set-Cookie`, which the model keeps in `setCookie`; with a cookie no `Set-Cookie`, and a report exactly when the cookie value is non-empty; without a cookie a 32-character id is issued when random bytes are available, and it is the hex rendering of those bytes shaped to version 4, and nothing is reported when they are not |
| BeaconLaws.RouteIgnoresOuterSlashes | ga-beacon.go:145 | extra separators around the path do not change the route |
| BeaconLaws.CookieMakesRandomIrrelevant | ga-beacon.go:183-194 | with a `cid` cookie the response does not depend on the random source |
| BeaconLaws.ReturningVisitor | ga-beacon.go:183-203 | a visitor returning with the issued cookie is reported with the same payload and headers, and is issued no new cookie |
| BeaconLaws.ImageIndependentOfIdentity | ga-beacon.go:196-221 | the asset and content type are the same whether or not a hit is reported |
| BeaconLaws.StripHttpsPrefix | ga-beacon.go:158 | `https://x` becomes `x` when `x` holds no scheme |
| BeaconLaws.RefererExtendsPage | ga-beacon.go:156-165 | with `useReferer`, `/account/page` and referer `https://x`, the hit is for `account` with page `page/x` |
| BeaconLaws.StripSchemeCutsInside | ga-beacon.go:158 | an `http://` in the middle of a referer is cut out too |
| BeaconLaws.ComposeExample | ga-beacon.go:128-139 | overriding `dp` and adding `custom` leaves every other default in place |

## Left out

- Server start-up, flags, signal handling and graceful shutdown
  (ga-beacon.go:37-83): process I/O and concurrency.
- `mustReadFile` and the loading of the five image files and the page
  template (ga-beacon.go:24-31, 85-91): file I/O. The assets are the five
  constructors of `Assets.Asset`.
- `log` (ga-beacon.go:106-120): the outbound POST, the form encoding of
  `url.Values.Encode` and the logging. A report is a `Beacon.Report` value
  holding the payload and the user agent. The POST is made synchronously
  (ga-beacon.go:202) before the image is written (ga-beacon.go:206-221), with
  an `http.Client` that has no timeout (ga-beacon.go:111). So a slow collector
  delays the image, and the server's 10-second write timeout
  (ga-beacon.go:54) can cut the response off. Latency and time-outs are not
  modelled: the model always returns the image. The POST's error does not
  change the response.
- `rand.Read` (ga-beacon.go:95): the sixteen bytes are an input, and `None`
  stands for its failure.
- Template execution and its 500 response (ga-beacon.go:175-178): the
  landing page is the value `Landing(account, referer)`.
- `time.Now().Format(http.TimeFormat)` (ga-beacon.go:197): the formatted
  time is the `now` field of the request.
- `url.ParseQuery` and `r.Cookie` (ga-beacon.go:146, 184): the parsed query
  and the cookie value are inputs. The query's parse error is ignored in the
  source as well.
- The order of the keys in the payload is not modelled, because `url.Values`
  is an unordered map.
- Go strings are byte sequences, and the model uses `seq<char>`. This makes
  no difference here, because every pattern the handler looks for (`/`,
  `http://`, `https://`) is ASCII.
- `Beacon.Cookie` is the `http.Cookie` value the handler builds
  (ga-beacon.go:189), not the `Set-Cookie` header line. When it writes
  the header, net/http keeps only the bytes of the cookie's `Path` from
  0x20 to 0x7e other than `;`. Control bytes, DEL, `;` and non-ASCII bytes
  are dropped. The model does not model that sanitising, so a path holding
  such bytes keeps them in the model.

=== FILE: assets.dfy ===
/** The image written for a tracked hit (ga-beacon.go:205-221): one of five
    blobs loaded at start-up, picked by the first query flag present in a
    fixed precedence order. The blobs themselves are opaque here. */
module Assets {

  datatype Asset = PixelGif | BadgeGif | FlatBadgeSvg | FlatBadgeGif | BadgeSvg

  /** The flags that pick an asset, highest precedence first. */
  const Flags: seq<string> := ["pixel", "gif", "flat", "flat-gif"]

  /** The asset a flag asks for. */
  function AssetOf(flag: string): Asset
  {
    if flag == "pixel" then PixelGif
    else if flag == "gif" then BadgeGif
    else if flag == "flat" then FlatBadgeSvg
    else FlatBadgeGif
  }

  /** The media type written in `Content-Type` with each asset. */
  function ContentType(a: Asset): (t: string)
    ensures t == "image/gif" <==> a in {PixelGif, BadgeGif, FlatBadgeGif}
    ensures t == "image/svg+xml" <==> a in {FlatBadgeSvg, BadgeSvg}
  {
    match a
    case PixelGif => "image/gif"
    case BadgeGif => "image/gif"
    case FlatBadgeSvg => "image/svg+xml"
    case FlatBadgeGif => "image/gif"
    case BadgeSvg => "image/svg+xml"
  }

  /** The if/else-if chain of the handler: `pixel`, then `gif`, then `flat`,
      then `flat-gif`, and the SVG badge when none is present. Only the
      presence of a key matters, not its values. */
  function Select(flags: set<string>): (a: Asset)
    ensures a == PixelGif <==> "pixel" in flags
    ensures a == BadgeGif <==> "gif" in flags && "pixel" !in flags
    ensures a == FlatBadgeSvg <==> "flat" in flags && "gif" !in flags && "pixel" !in flags
    ensures a == FlatBadgeGif <==> "flat-gif" in flags && "flat" !in flags && "gif" !in flags && "pixel" !in flags
    ensures a == BadgeSvg <==> "flat-gif" !in flags && "flat" !in flags && "gif" !in flags && "pixel" !in flags
  {
    if "pixel" in flags then PixelGif
    else if "gif" in flags then BadgeGif
    else if "flat" in flags then FlatBadgeSvg
    else if "flat-gif" in flags then FlatBadgeGif
    else BadgeSvg
  }

  /** Reference definition of the precedence: walk `order` and take the asset
      of the first flag present. */
  function FirstPresent(order: seq<string>, flags: set<string>): (a: Asset)
  {
    if order == [] then BadgeSvg
    else if order[0] in flags then AssetOf(order[0])
    else FirstPresent(order[1..], flags)
  }

  /** The handler's chain is the walk over `Flags`. */
  lemma SelectIsFirstPresent(flags: set<string>)
    ensures Select(flags) == FirstPresent(Flags, flags)
  {
    var o1 := ["gif", "flat", "flat-gif"];
    var o2 := ["flat", "flat-gif"];
    var o3 := ["flat-gif"];
    assert Flags[1..] == o1 && o1[1..] == o2 && o2[1..] == o3 && o3[1..] == [];
    assert FirstPresent(o3, flags) == if "flat-gif" in flags then FlatBadgeGif else BadgeSvg;
    assert FirstPresent(o2, flags) == if "flat" in flags then FlatBadgeSvg else FirstPresent(o3, flags);
    assert FirstPresent(o1, flags) == if "gif" in flags then BadgeGif else FirstPresent(o2, flags);
  }

  /** Flags of lower precedence than the one that decided never change the
      choice. */
  lemma {:induction false} LowerFlagsDoNotMatter(order: seq<string>, flags: set<string>, i: nat, extra: set<string>)
    requires i < |order| && order[i] in flags
    requires forall j :: 0 <= j < i ==> order[j] !in flags + extra
    ensures FirstPresent(order, flags + extra) == FirstPresent(order, flags) == AssetOf(order[i])
  {
    if i > 0 {
      LowerFlagsDoNotMatter(order[1..], flags, i - 1, extra);
    }
  }
}

=== FILE: beacon.dfy ===
/** The request handler of ga-beacon.go (lines 144-222) as one function from
    the facts of a request to the response it produces. The socket, the
    template, the clock, the random source and the outbound POST are not
    modelled: what they would deliver is an input, and what would be sent
    to the collector is part of the result. */
module Beacon {
  import opened Options
  import opened Text
  import opened Uuid
  import opened Payload
  import opened Assets

  /** Where a request without an account is redirected. */
  const ProjectUrl: string := "https://github.com/irvinlim/ga-beacon"

  /** `http.StatusFound`. */
  const StatusFound: nat := 302

  /** The `Cache-Control` value of a reported hit. */
  const NoCache: string := "no-cache, no-store, must-revalidate, private"

  /** What the handler reads from a request: the URL path, the parsed query,
      the `Referer` and `User-Agent` headers, the value of the `cid` cookie
      if the request has one, the remote address, and the current time as
      `http.TimeFormat` would print it. */
  datatype Request = Request(
    path: string,
    query: Values,
    referer: string,
    cidCookie: Option<string>,
    userAgent: string,
    remoteAddr: string,
    now: string)

  /** A `Set-Cookie` the handler issues. */
  datatype Cookie = Cookie(name: string, value: string, path: string)

  /** What `logHit` hands to the collector: the form fields and the caller's
      user agent. */
  datatype Report = Report(payload: Values, userAgent: string)

  /** The three ways a request ends. `Landing` is the account page, whose
      HTML the template renders from the account and the raw referer. */
  datatype Response =
    | Redirect(location: string, status: nat)
    | Landing(account: string, referer: string)
    | Image(setCookie: Option<Cookie>, headers: map<string, string>, report: Option<Report>, asset: Asset)

  /** How the path is classified: no account, an account alone, or an account
      and a page. */
  datatype Route = ToRedirect | ToLanding(account: string) | ToHit(account: string, page: string)

  /** The two `strings.Replace(..., 1)` calls: the first `http://` is cut out,
      then the first `https://` of what is left, each wherever it stands. */
  function StripScheme(referer: string): (r: string)
    ensures !Contains(referer, "http://") && !Contains(referer, "https://") ==> r == referer
    ensures !Contains(referer, "http://") && Contains(referer, "https://") ==>
      var j := Index(referer, "https://").value; r == referer[..j] + referer[j + 8..]
    ensures Contains(referer, "http://") ==>
      var i := Index(referer, "http://").value;
      var m := referer[..i] + referer[i + 7..];
      && (!Contains(m, "https://") ==> r == m)
      && (Contains(m, "https://") ==> var j := Index(m, "https://").value; r == m[..j] + m[j + 8..])
    ensures |r| <= |referer|
  {
    RemoveFirst(RemoveFirst(referer, "http://"), "https://")
  }

  /** The referer takes the place of the page: `useReferer` is in the query,
      the header is not empty, and something is left once the scheme is
      cut out. */
  predicate UsesReferer(query: Values, referer: string) {
    "useReferer" in query && |referer| != 0 && |StripScheme(referer)| != 0
  }

  /** Routing of ga-beacon.go:145-180. The path is trimmed of separators and
      split once; an empty first segment means a redirect. With the referer
      in use the split is redone on the trimmed path, a separator and the
      stripped referer, so there is always a page and the account stays the
      first segment of the path. */
  function RouteOf(path: string, query: Values, referer: string): (r: Route)
    ensures r.ToRedirect? <==> AllSlashes(path)
    ensures !r.ToRedirect? ==> r.account != [] && '/' !in r.account && r.account == Split(Trim(path))[0]
    ensures r.ToLanding? <==> !AllSlashes(path) && '/' !in Trim(path) && !UsesReferer(query, referer)
    ensures r.ToLanding? ==> r.account == Trim(path)
    ensures r.ToHit? && !UsesReferer(query, referer) ==> r.account + "/" + r.page == Trim(path)
    ensures r.ToHit? && UsesReferer(query, referer) ==>
      r.page == (if '/' in Trim(path) then Split(Trim(path))[1] + "/" else "") + StripScheme(referer)
    ensures r.ToHit? && UsesReferer(query, referer) ==> EndsWith(r.page, StripScheme(referer))
  {
    var trimmed := Trim(path);
    var params := Split(trimmed);
    SplitOfTrimmed(trimmed);
    if |params[0]| == 0 then
      ToRedirect
    else if UsesReferer(query, referer) then
      var stripped := StripScheme(referer);
      SplitAppend(trimmed, stripped);
      var params := Split(trimmed + "/" + stripped);
      assert EndsWith(params[1], stripped) by {
        if |Split(trimmed)| == 2 {
          var a := Split(trimmed)[1] + "/";
          assert params[1] == a + stripped;
        }
      }
      ToHit(params[0], params[1])
    else if |params| == 1 then
      ToLanding(params[0])
    else
      ToHit(params[0], params[1])
  }

  /** The segments of a trimmed path: the first is empty only for the empty
      path, and the segments put back together are the path. */
  lemma SplitOfTrimmed(t: string)
    requires t == [] || t[0] != '/'
    ensures Split(t)[0] == [] <==> t == []
    ensures |Split(t)| == 1 ==> Split(t)[0] == t
    ensures |Split(t)| == 2 ==> Split(t)[0] + "/" + Split(t)[1] == t
  {
    var parts := Split(t);
    if |parts| == 2 {
      assert parts[1..] == [parts[1]];
      assert Join(parts) == parts[0] + "/" + parts[1];
    }
  }

  /** Splitting `t + "/" + x` gives two segments; the first is the first
      segment of `t`, and the second is what followed it in `t`, a
      separator and `x`, or `x` alone when `t` has no separator. */
  lemma SplitAppend(t: string, x: string)
    ensures |Split(t + "/" + x)| == 2
    ensures Split(t + "/" + x)[0] == Split(t)[0]
    ensures Split(t + "/" + x)[1] == if |Split(t)| == 2 then Split(t)[1] + "/" + x else x
  {
    var u := t + "/" + x;
    forall j: nat | j < |t| ensures OccursAt(u, "/", j) <==> OccursAt(t, "/", j) {
      OccursAtChar(u, '/', j);
      OccursAtChar(t, '/', j);
    }
    match Index(t, "/")
    case Some(i) =>
      OccursAtChar(t, '/', i);
      OccursAtChar(u, '/', i);
      IndexIsFirst(u, "/", i);
      assert u[..i] == t[..i];
      assert u[i + 1..] == t[i + 1..] + "/" + x;
    case None =>
      OccursAtChar(u, '/', |t|);
      IndexIsFirst(u, "/", |t|);
      assert u[..|t|] == t;
      assert u[|t| + 1..] == x;
  }

  /** The client id of ga-beacon.go:183-194 and the cookie issued with it. */
  datatype Identity = Identity(cid: string, setCookie: Option<Cookie>)

  /** An existing `cid` cookie is used as it is and nothing is issued. Without
      one a fresh id is made from `random`, and a `cid` cookie scoped to the
      account's path is issued with it; when the random source failed
      (`random` is `None`) the id stays empty. */
  function Identify(cookie: Option<string>, random: Option<seq<byte>>, account: string): (id: Identity)
    requires random.Some? ==> IsBlock(random.value)
    ensures cookie.Some? ==> id.cid == cookie.value
    ensures id.setCookie.Some? <==> cookie.None? && random.Some?
    ensures id.setCookie.Some? ==> id.setCookie.value == Cookie("cid", id.cid, "/" + account)
    ensures cookie.None? && random.Some? ==> |id.cid| == 32 && HexDecode(id.cid) == Some(Shape(random.value))
    ensures cookie.None? && random.None? ==> id.cid == ""
  {
    match cookie
    case Some(value) => Identity(value, None)
    case None =>
      match random
      case None => Identity("", None)
      case Some(bytes) =>
        var cid := NewClientId(bytes);
        Identity(cid, Some(Cookie("cid", cid, "/" + account)))
  }

  /** The response to a tracked hit for `account` and `page`: the hit is
      reported and the cache and `CID` headers are set only when there is a
      client id; the image is written in every case. */
  function Track(req: Request, random: Option<seq<byte>>, account: string, page: string): (resp: Response)
    requires random.Some? ==> IsBlock(random.value)
    ensures resp.Image?
    ensures resp.asset == Select(req.query.Keys)
    ensures "Content-Type" in resp.headers && resp.headers["Content-Type"] == ContentType(resp.asset)
    ensures resp.report.Some? <==> "CID" in resp.headers
    ensures resp.report.Some? <==> Identify(req.cidCookie, random, account).cid != ""
    ensures resp.report.None? ==> resp.headers.Keys == {"Content-Type"}
    ensures resp.report.Some? ==> resp.headers.Keys == {"Cache-Control", "Expires", "CID", "Content-Type"}
    ensures resp.report.Some? ==>
      && resp.headers["CID"] == Identify(req.cidCookie, random, account).cid
      && "Cache-Control" in resp.headers && resp.headers["Cache-Control"] == NoCache
      && "Expires" in resp.headers && resp.headers["Expires"] == req.now
      && resp.report.value.userAgent == req.userAgent
      && resp.report.value.payload == Compose(account, page, resp.headers["CID"], req.remoteAddr, req.query)
    ensures resp.setCookie == Identify(req.cidCookie, random, account).setCookie
  {
    var id := Identify(req.cidCookie, random, account);
    var asset := Select(req.query.Keys);
    if id.cid != "" then
      var headers := map[
        "Cache-Control" := NoCache,
        "Expires" := req.now,
        "CID" := id.cid,
        "Content-Type" := ContentType(asset)];
      var payload := Compose(account, page, id.cid, req.remoteAddr, req.query);
      Image(id.setCookie, headers, Some(Report(payload, req.userAgent)), asset)
    else
      Image(id.setCookie, map["Content-Type" := ContentType(asset)], None, asset)
  }

  /** The whole handler. */
  function Handle(req: Request, random: Option<seq<byte>>): (resp: Response)
    requires random.Some? ==> IsBlock(random.value)
    ensures resp.Redirect? <==> AllSlashes(req.path)
    ensures resp.Redirect? ==> resp.location == ProjectUrl && resp.status == StatusFound
    ensures resp.Landing? <==> !AllSlashes(req.path) && '/' !in Trim(req.path) && !UsesReferer(req.query, req.referer)
    ensures resp.Landing? ==> resp.account == Trim(req.path) && resp.referer == req.referer
    ensures resp.Image? ==> resp.asset == Select(req.query.Keys)
    ensures resp.Image? ==> (resp.report.Some? <==> "CID" in resp.headers)
    ensures resp.Image? && resp.report.None? ==> resp.headers.Keys == {"Content-Type"}
    ensures resp.Image? && resp.report.Some? ==>
      resp.headers.Keys == {"Cache-Control", "Expires", "CID", "Content-Type"}
    ensures resp.Image? ==>
      var r := RouteOf(req.path, req.query, req.referer);
      && r.ToHit?
      && (resp.report.Some? ==>
            && resp.report.value.payload == Compose(r.account, r.page, resp.headers["CID"], req.remoteAddr, req.query)
            && resp.report.value.userAgent == req.userAgent)
    ensures resp.Image? && req.cidCookie.Some? ==>
      && resp.setCookie.None?
      && (resp.report.Some? <==> req.cidCookie.value != "")
      && (resp.report.Some? ==> resp.headers["CID"] == req.cidCookie.value)
    ensures resp.Image? && resp.report.Some? ==>
      resp.headers["Cache-Control"] == NoCache && resp.headers["Expires"] == req.now
    ensures resp.Image? && req.cidCookie.None? && random.Some? ==>
      && resp.report.Some?
      && |resp.headers["CID"]| == 32
      && HexDecode(resp.headers["CID"]) == Some(Shape(random.value))
      && resp.setCookie == Some(Cookie("cid", resp.headers["CID"], "/" + Split(Trim(req.path))[0]))
    ensures resp.Image? && req.cidCookie.None? && random.None? ==>
      resp.setCookie.None? && resp.report.None?
  {
    match RouteOf(req.path, req.query, req.referer)
    case ToRedirect => Redirect(ProjectUrl, StatusFound)
    case ToLanding(account) => Landing(account, req.referer)
    case ToHit(account, page) => Track(req, random, account, page)
  }
}

/** Properties that relate several requests to the handler. */
module BeaconLaws {
  import opened Options
  import opened Text
  import opened Uuid
  import opened Payload
  import opened Beacon

  /** Separators added at either end of the path change nothing: the route
      depends on the trimmed path only. */
  lemma RouteIgnoresOuterSlashes(path: string, query: Values, referer: string)
    ensures RouteOf("/" + path + "/", query, referer) == RouteOf(path, query, referer)
  {
    assert Trim("/" + path + "/") == Trim(path) by {
      TrimPadded("/" + path);
      TrimPadded(path);
    }
  }

  /** With a `cid` cookie no identity is generated: the random bytes, or
      their absence, make no difference to the response. */
  lemma CookieMakesRandomIrrelevant(req: Request, r1: Option<seq<byte>>, r2: Option<seq<byte>>)
    requires req.cidCookie.Some?
    requires r1.Some? ==> IsBlock(r1.value)
    requires r2.Some? ==> IsBlock(r2.value)
    ensures Handle(req, r1) == Handle(req, r2)
  {
  }

  /** A visitor who comes back with the cookie issued on a tracked hit is
      reported again under the same id, with the same payload and headers,
      and is issued no new cookie, whatever the random source does then. */
  lemma ReturningVisitor(req: Request, random: seq<byte>, later: Option<seq<byte>>, account: string, page: string)
    requires IsBlock(random)
    requires later.Some? ==> IsBlock(later.value)
    requires req.cidCookie.None?
    ensures Track(req, Some(random), account, page).setCookie.Some?
    ensures
      var first := Track(req, Some(random), account, page);
      var again := Track(req.(cidCookie := Some(first.setCookie.value.value)), later, account, page);
      && again.setCookie.None?
      && again.report == first.report
      && again.headers == first.headers
      && again.asset == first.asset
  {
    var first := Track(req, Some(random), account, page);
    var cid := Identify(None, Some(random), account).cid;
    assert first.setCookie == Some(Cookie("cid", cid, "/" + account));
    var req2 := req.(cidCookie := Some(cid));
    assert Identify(req2.cidCookie, later, account).cid == cid;
  }

  /** The image does not depend on the client id: whether a hit is reported
      or not, the same asset is written with the same content type. */
  lemma ImageIndependentOfIdentity(req: Request, cookie: Option<string>, r1: Option<seq<byte>>, r2: Option<seq<byte>>, account: string, page: string)
    requires r1.Some? ==> IsBlock(r1.value)
    requires r2.Some? ==> IsBlock(r2.value)
    ensures
      var a := Track(req, r1, account, page);
      var b := Track(req.(cidCookie := cookie), r2, account, page);
      && b.asset == a.asset
      && b.headers["Content-Type"] == a.headers["Content-Type"]
  {
  }

  /** A referer of the form `https://x` loses its scheme and nothing else
      when `x` holds no scheme of its own. */
  lemma StripHttpsPrefix(x: string)
    requires !Contains(x, "http://") && !Contains(x, "https://")
    ensures StripScheme("https://" + x) == x
  {
    var ref := "https://" + x;
    HttpsPrefixHidesHttp(ref, x);
    assert RemoveFirst(ref, "http://") == ref;
    assert OccursAt(ref, "https://", 0);
    IndexIsFirst(ref, "https://", 0);
    assert ref[8..] == x;
  }

  /** `http://` cannot start inside an `https://` prefix, so it occurs in
      `ref` only where it occurs in the rest. */
  lemma {:induction false} HttpsPrefixHidesHttp(ref: string, x: string)
    requires ref == "https://" + x && !Contains(x, "http://")
    ensures !Contains(ref, "http://")
  {
    forall j: nat | j <= |ref| ensures !OccursAt(ref, "http://", j) {
      if j + 7 <= |ref| {
        if j >= 8 {
          assert ref[j..j + 7] == x[j - 8..j - 8 + 7];
          assert !OccursAt(x, "http://", j - 8);
        } else if j == 0 {
          assert ref[j..j + 7][4] == 's';
        } else {
          assert ref[j..j + 7][0] == ref[j] != 'h';
        }
      }
    }
  }

  /** With `useReferer` and a referer `https://x`, a request for
      `/account/page` is tracked under `account` with the page
      `page/x`: the account is not the whole requested path. */
  lemma RefererExtendsPage(account: string, page: string, query: Values, x: string)
    requires account != [] && '/' !in account
    requires page != [] && page[0] != '/' && page[|page| - 1] != '/'
    requires "useReferer" in query
    requires x != [] && !Contains(x, "http://") && !Contains(x, "https://")
    ensures RouteOf("/" + account + "/" + page, query, "https://" + x) == ToHit(account, page + "/" + x)
  {
    var path, ref := "/" + account + "/" + page, "https://" + x;
    StripHttpsPrefix(x);
    AccountPageSegments(account, page);
    assert !AllSlashes(path) by { assert path[1] != '/'; }
    assert '/' in Trim(path) by { assert Trim(path)[|account|] == '/'; }
  }

  /** `/account/page` trims to `account/page`, whose segments are `account`
      and `page`. */
  lemma AccountPageSegments(account: string, page: string)
    requires account != [] && '/' !in account
    requires page != [] && page[0] != '/' && page[|page| - 1] != '/'
    ensures Trim("/" + account + "/" + page) == account + "/" + page
    ensures Split(account + "/" + page) == [account, page]
  {
    var path := "/" + account + "/" + page;
    var trimmed := account + "/" + page;
    assert path[1..] == trimmed;
    assert TrimLeft(path) == trimmed;
    assert TrimRight(trimmed) == trimmed;
    assert Split(account) == [account] by {
      assert Join(Split(account)) == account;
    }
    SplitAppend(account, page);
  }

  /** The scheme is searched for anywhere in the referer, not only at its
      start: from `a` followed by `http://` and `b`, where `a` holds no `h`
      and `b` no scheme, the `http://` in the middle is cut out. */
  lemma StripSchemeCutsInside(a: string, b: string)
    requires forall i :: 0 <= i < |a| ==> a[i] != 'h'
    requires !Contains(b, "http://") && !Contains(b, "https://")
    ensures StripScheme(a + "http://" + b) == a + b
  {
    var ref := a + "http://" + b;
    assert OccursAt(ref, "http://", |a|) by {
      assert ref[|a|..|a| + 7] == "http://";
    }
    forall j: nat | j < |a| ensures !OccursAt(ref, "http://", j) {
      assert ref[j] == a[j];
    }
    IndexIsFirst(ref, "http://", |a|);
    assert ref[..|a|] == a && ref[|a| + 7..] == b;
    assert RemoveFirst(ref, "http://") == a + b;
    NoHttpsAcross(a, b, a + b);
  }

  /** `https://` cannot occur in `a + b` when `a` holds no `h` and `b` holds
      no `https://`. */
  lemma {:induction false} NoHttpsAcross(a: string, b: string, once: string)
    requires once == a + b
    requires forall i :: 0 <= i < |a| ==> a[i] != 'h'
    requires !Contains(b, "https://")
    ensures !Contains(once, "https://")
  {
    forall j: nat | j <= |once| ensures !OccursAt(once, "https://", j) {
      if j < |a| {
        assert j + 8 <= |once| ==> once[j..j + 8][0] == a[j];
      } else if j + 8 <= |once| {
        assert once[|a|..] == b;
        assert once[j..j + 8] == once[|a|..][j - |a|..j - |a| + 8];
        assert !OccursAt(b, "https://", j - |a|);
      }
    }
  }

  /** The payload example: `dp` is overridden, `custom` is added, every other
      default stays. */
  lemma ComposeExample()
    ensures
      var p := Compose("abc", "/page", "xyz", "1.2.3.4", map["dp" := ["/override"], "custom" := ["z"]]);
      p == map["v" := ["1"], "t" := ["pageview"], "tid" := ["abc"], "cid" := ["xyz"],
               "dp" := ["/override"], "uip" := ["1.2.3.4"], "custom" := ["z"]]
  {
  }
}

=== FILE: options.dfy ===
/** Optional values, used wherever the Go code returns a value together with an
    `ok` flag or an error that carries no information of interest here. */
module Options {

  datatype Option<+T> = None | Some(value: T)
}

=== FILE: payload.dfy ===
/** The event payload of `logHit` (ga-beacon.go:122-142): six default
    Measurement Protocol fields computed from the request, with every query
    parameter laid over them. */
module Payload {

  /** `url.Values`: each key maps to the list of its values, in order. */
  type Values = map<string, seq<string>>

  /** The six fields every hit starts from: protocol version, hit type,
      tracking id, client id, document path and the caller's address. */
  function Defaults(account: string, page: string, cid: string, ip: string): (d: Values)
    ensures d.Keys == {"v", "t", "tid", "cid", "dp", "uip"}
  {
    map[
      "v" := ["1"],
      "t" := ["pageview"],
      "tid" := [account],
      "cid" := [cid],
      "dp" := [page],
      "uip" := [ip]
    ]
  }

  /** The reported payload. A query key replaces the whole value list of a
      default field or adds a field of its own; every default field the query
      does not name keeps its default value. */
  function Compose(account: string, page: string, cid: string, ip: string, query: Values): (p: Values)
    ensures p.Keys == Defaults(account, page, cid, ip).Keys + query.Keys
    ensures forall k :: k in query ==> p[k] == query[k]
    ensures "v" !in query ==> p["v"] == ["1"]
    ensures "t" !in query ==> p["t"] == ["pageview"]
    ensures "tid" !in query ==> p["tid"] == [account]
    ensures "cid" !in query ==> p["cid"] == [cid]
    ensures "dp" !in query ==> p["dp"] == [page]
    ensures "uip" !in query ==> p["uip"] == [ip]
  {
    Defaults(account, page, cid, ip) + query
  }

  /** The `for key, val := range query { payload[key] = val }` loop. Go visits
      the keys of a map in an unspecified order, so the key handled next is
      an arbitrary one of those left; whatever the order, the payload is
      the one `Compose` describes. */
  method Overlay(defaults: Values, query: Values) returns (payload: Values)
    ensures payload.Keys == defaults.Keys + query.Keys
    ensures forall k :: k in query ==> payload[k] == query[k]
    ensures forall k :: k in defaults && k !in query ==> payload[k] == defaults[k]
  {
    payload := defaults;
    var left := query.Keys;
    while left != {}
      invariant left <= query.Keys
      invariant payload.Keys == defaults.Keys + (query.Keys - left)
      invariant forall k :: k in query && k !in left ==> payload[k] == query[k]
      invariant forall k :: k in defaults && k !in query.Keys - left ==> payload[k] == defaults[k]
      decreases left
    {
      var key :| key in left;
      payload := payload[key := query[key]];
      left := left - {key};
    }
  }

  /** The loop and `Compose` agree for any query. */
  method ComposeByLoop(account: string, page: string, cid: string, ip: string, query: Values)
    returns (payload: Values)
    ensures payload == Compose(account, page, cid, ip, query)
  {
    payload := Overlay(Defaults(account, page, cid, ip), query);
  }

  /** Without query parameters the payload is the default field set. */
  lemma EmptyQueryGivesDefaults(account: string, page: string, cid: string, ip: string)
    ensures Compose(account, page, cid, ip, map[]) == Defaults(account, page, cid, ip)
  {
  }

  /** Laying two query maps over the defaults one after the other is laying
      their union (the second one winning) in one step. Independence from
      the order in which the loop visits keys is what `ComposeByLoop` states. */
  lemma OverlayInBatches(account: string, page: string, cid: string, ip: string, q1: Values, q2: Values)
    ensures Compose(account, page, cid, ip, q1) + q2 == Compose(account, page, cid, ip, q1 + q2)
  {
  }
}

=== FILE: text.dfy ===
/** The three string primitives of the Go standard library that the request
    handler relies on, restricted to the way the handler calls them:
    `strings.Trim(s, "/")`, `strings.SplitN(s, "/", 2)` and
    `strings.Replace(s, old, "", 1)`. */
module Text {
  import opened Options

  /** True when every character of `s` is a path separator. */
  predicate AllSlashes(s: string) {
    forall i :: 0 <= i < |s| ==> s[i] == '/'
  }

  /** `pat` occurs in `s` starting at position `i`. */
  predicate OccursAt(s: string, pat: string, i: nat) {
    i + |pat| <= |s| && s[i..i + |pat|] == pat
  }

  /** `pat` occurs somewhere in `s`. */
  predicate Contains(s: string, pat: string) {
    exists i: nat :: i <= |s| && OccursAt(s, pat, i)
  }

  /** `suffix` is a suffix of `s`. */
  predicate EndsWith(s: string, suffix: string) {
    |suffix| <= |s| && s[|s| - |suffix|..] == suffix
  }

  /** `strings.TrimLeft(s, "/")`: every leading separator is dropped. */
  function TrimLeft(s: string): (r: string)
    ensures |r| <= |s| && r == s[|s| - |r|..]
    ensures AllSlashes(s[..|s| - |r|])
    ensures r == [] || r[0] != '/'
  {
    if |s| > 0 && s[0] == '/' then
      var r := TrimLeft(s[1..]);
      var m := |s| - 1 - |r|;
      assert s[1..][..m] == s[1..1 + m] && s[1..][m..] == s[1 + m..];
      ConsSlashes(s, 1 + m);
      r
    else s
  }

  /** A separator in front of a run of separators makes a longer run. */
  lemma {:induction false} ConsSlashes(s: string, k: nat)
    requires 0 < k <= |s| && s[0] == '/' && AllSlashes(s[1..k])
    ensures AllSlashes(s[..k])
  {
    forall i | 0 <= i < k ensures s[..k][i] == '/' {
      if i > 0 {
        assert s[..k][i] == s[1..k][i - 1];
      }
    }
  }

  /** `strings.TrimRight(s, "/")`: every trailing separator is dropped. */
  function TrimRight(s: string): (r: string)
    ensures |r| <= |s| && r == s[..|r|]
    ensures AllSlashes(s[|r|..])
    ensures r == [] || r[|r| - 1] != '/'
  {
    if |s| > 0 && s[|s| - 1] == '/' then
      var r := TrimRight(s[..|s| - 1]);
      assert s[..|s| - 1][..|r|] == s[..|r|];
      SnocSlashes(s, |r|);
      r
    else s
  }

  /** A run of separators followed by a final separator is a longer run. */
  lemma {:induction false} SnocSlashes(s: string, k: nat)
    requires k < |s| && s[|s| - 1] == '/' && AllSlashes(s[..|s| - 1][k..])
    ensures AllSlashes(s[k..])
  {
    forall i | 0 <= i < |s| - k ensures s[k..][i] == '/' {
      if i < |s| - 1 - k {
        assert s[k..][i] == s[..|s| - 1][k..][i];
      }
    }
  }

  /** `strings.Trim(s, "/")`: separators are dropped from both ends, so the
      result neither starts nor ends with one. `TrimIsSlice` and `TrimEmpty`
      say which part of `s` it keeps. */
  function Trim(s: string): (r: string)
    ensures |r| <= |s|
    ensures r == [] || (r[0] != '/' && r[|r| - 1] != '/')
  {
    var t := TrimLeft(s);
    var r := TrimRight(t);
    TrimSlices(s, |s| - |t|, t, r);
    r
  }

  /** `Trim` keeps one stretch of `s`, in order and unchanged: the one that
      starts after the leading separators. */
  lemma TrimIsSlice(s: string)
    ensures var k := |s| - |TrimLeft(s)|;
      && k + |Trim(s)| <= |s|
      && (forall i :: 0 <= i < |Trim(s)| ==> Trim(s)[i] == s[k + i])
  {
    var t := TrimLeft(s);
    TrimSlices(s, |s| - |t|, t, TrimRight(t));
  }

  /** What `Trim` drops on either side of the stretch it keeps is made of
      separators only. */
  lemma TrimDropsSlashes(s: string)
    ensures var k := |s| - |TrimLeft(s)|;
      && k + |Trim(s)| <= |s|
      && (forall i :: 0 <= i < k ==> s[i] == '/')
      && (forall i :: k + |Trim(s)| <= i < |s| ==> s[i] == '/')
  {
    var t := TrimLeft(s);
    TrimSlices(s, |s| - |t|, t, TrimRight(t));
  }

  /** `Trim` leaves nothing exactly when `s` is made of separators. */
  lemma TrimEmpty(s: string)
    ensures Trim(s) == [] <==> AllSlashes(s)
  {
    TrimLeftAllSlashes(s);
  }

  /** When `t` is `s` without its `k` leading separators and `r` is `t`
      without its trailing ones, `r` is one slice of `s` with separators
      on both sides, and it neither starts nor ends with one. */
  lemma {:induction false} TrimSlices(s: string, k: nat, t: string, r: string)
    requires k <= |s| && t == s[k..] && AllSlashes(s[..k])
    requires t == [] || t[0] != '/'
    requires |r| <= |t| && r == t[..|r|] && AllSlashes(t[|r|..])
    requires r == [] || r[|r| - 1] != '/'
    ensures k + |r| <= |s| && AllSlashes(s[..k])
    ensures r == s[k..k + |r|] && AllSlashes(s[k + |r|..])
    ensures r == [] || (r[0] != '/' && r[|r| - 1] != '/')
  {
    assert t[|r|..] == s[k + |r|..];
    if r != [] {
      assert r[0] == t[0];
    }
  }

  /** Trimming the left end leaves nothing but separators only when `s` was
      made of separators. */
  lemma {:induction false} TrimLeftAllSlashes(s: string)
    ensures AllSlashes(TrimLeft(s)) <==> AllSlashes(s)
  {
    var t := TrimLeft(s);
    var k := |s| - |t|;
    if AllSlashes(t) {
      assert t == [];
      assert s[..k] == s;
    }
  }

  /** Extra separators at either end of a path do not change what `Trim`
      keeps. */
  lemma {:induction false} TrimPadded(s: string)
    ensures Trim("/" + s) == Trim(s)
    ensures Trim(s + "/") == Trim(s)
  {
    assert ("/" + s)[1..] == s;
    TrimLeftAppendSlash(s);
    var t := TrimLeft(s);
    if !AllSlashes(s) {
      assert (t + "/")[..|t + "/"| - 1] == t;
    } else {
      TrimLeftAllSlashes(s);
      assert t == [];
    }
  }

  /** A trailing separator survives `TrimLeft` unless the whole string is
      made of separators. */
  lemma {:induction false} TrimLeftAppendSlash(s: string)
    ensures TrimLeft(s + "/") == if AllSlashes(s) then [] else TrimLeft(s) + "/"
  {
    if s == [] {
      assert (s + "/")[1..] == [];
      assert TrimLeft(s + "/") == TrimLeft([]);
    } else if s[0] == '/' {
      assert (s + "/")[1..] == s[1..] + "/";
      assert TrimLeft(s + "/") == TrimLeft(s[1..] + "/");
      assert TrimLeft(s) == TrimLeft(s[1..]);
      TrimLeftAppendSlash(s[1..]);
      AllSlashesTail(s);
    } else {
      assert (s + "/")[0] == s[0];
      assert !AllSlashes(s);
    }
  }

  /** Behind a leading separator, the rest decides whether `s` is a run of
      separators. */
  lemma {:induction false} AllSlashesTail(s: string)
    requires |s| > 0 && s[0] == '/'
    ensures AllSlashes(s) <==> AllSlashes(s[1..])
  {
    if AllSlashes(s[1..]) {
      forall i | 0 <= i < |s| ensures s[i] == '/' {
        if i > 0 {
          assert s[i] == s[1..][i - 1];
        }
      }
    }
  }

  /** The first position at which `pat` occurs in `s`, as Go's
      `strings.Index` computes it; `None` when it does not occur. */
  function Index(s: string, pat: string): (r: Option<nat>)
    ensures r.Some? ==> OccursAt(s, pat, r.value)
    ensures r.Some? ==> forall j: nat :: j < r.value ==> !OccursAt(s, pat, j)
    ensures r.None? ==> forall j: nat :: !OccursAt(s, pat, j)
    decreases |s|
  {
    if |pat| <= |s| && s[..|pat|] == pat then Some(0)
    else if |s| == 0 then None
    else
      var rest := Index(s[1..], pat);
      assert !OccursAt(s, pat, 0);
      assert forall j: nat :: 0 < j ==> (OccursAt(s, pat, j) <==> OccursAt(s[1..], pat, j - 1)) by {
        forall j: nat | 0 < j ensures OccursAt(s, pat, j) <==> OccursAt(s[1..], pat, j - 1) {
          if j + |pat| <= |s| {
            assert s[1..][j - 1..j - 1 + |pat|] == s[j..j + |pat|];
          }
        }
      }
      match rest
      case None => None
      case Some(i) => Some(i + 1)
  }

  /** A first occurrence is the one `Index` reports. */
  lemma IndexIsFirst(s: string, pat: string, i: nat)
    requires OccursAt(s, pat, i)
    requires forall j: nat :: j < i ==> !OccursAt(s, pat, j)
    ensures Index(s, pat) == Some(i)
  {
    assert Index(s, pat).Some?;
  }

  /** A one-character pattern occurs exactly where that character is. */
  lemma OccursAtChar(s: string, c: char, j: nat)
    ensures OccursAt(s, [c], j) <==> j < |s| && s[j] == c
  {
    if j < |s| {
      assert s[j..j + 1] == [s[j]];
    }
  }

  /** `strings.Join(parts, "/")`. */
  function Join(parts: seq<string>): string
  {
    if |parts| == 0 then ""
    else if |parts| == 1 then parts[0]
    else parts[0] + "/" + Join(parts[1..])
  }

  /** `strings.SplitN(s, "/", 2)`: the part before the first separator and,
      when there is a separator, everything after it, unsplit. Joining the
      parts again gives back `s`; the first part never holds a separator;
      there are two parts exactly when `s` holds a separator. */
  function Split(s: string): (parts: seq<string>)
    ensures 1 <= |parts| <= 2
    ensures '/' !in parts[0]
    ensures Join(parts) == s
    ensures |parts| == 2 <==> '/' in s
  {
    match Index(s, "/")
    case None =>
      assert '/' !in s by {
        forall j: nat | j < |s| ensures s[j] != '/' {
          OccursAtChar(s, '/', j);
        }
      }
      [s]
    case Some(i) =>
      OccursAtChar(s, '/', i);
      assert '/' !in s[..i] by {
        forall j: nat | j < i ensures s[..i][j] != '/' {
          OccursAtChar(s, '/', j);
        }
      }
      assert s == s[..i] + "/" + s[i + 1..];
      [s[..i], s[i + 1..]]
  }

  /** `strings.Replace(s, pat, "", 1)`: the first occurrence of `pat`, wherever
      it is, is cut out; `s` is returned unchanged when `pat` does not occur.
      Putting `pat` back at the cut gives `s` again. */
  function RemoveFirst(s: string, pat: string): (r: string)
    ensures !Contains(s, pat) ==> r == s
    ensures Contains(s, pat) ==> |r| + |pat| == |s|
    ensures Contains(s, pat) ==>
      var i := Index(s, pat).value; s == r[..i] + pat + r[i..]
  {
    match Index(s, pat)
    case None => s
    case Some(i) =>
      var r := s[..i] + s[i + |pat|..];
      assert r[..i] == s[..i] && r[i..] == s[i + |pat|..];
      assert s == s[..i] + s[i..i + |pat|] + s[i + |pat|..];
      r
  }
}

=== FILE: uuid.dfy ===
/** The client identifier of `generateUUID` (ga-beacon.go:93-104): sixteen
    random bytes, two of them shaped into the version and variant fields of
    section 4.1 of RFC 4122, rendered as lower-case hexadecimal. The random
    source is not modelled: the bytes it would have produced are an input. */
module Uuid {
  import opened Options

  type byte = bv8

  /** Sixteen bytes, the size of the buffer `generateUUID` fills. */
  predicate IsBlock(b: seq<byte>) {
    |b| == 16
  }

  /** Byte 6 as the Go code shapes it: `(b | 0x40) & 0x4F`. */
  function ShapeVersion(b: byte): (r: byte)
    ensures r >> 4 == 4                  // version 4, section 4.1.3 of RFC 4122
    ensures r & 0x0F == b & 0x0F         // the low nibble is the random one
  {
    (b | 0x40) & 0x4F
  }

  /** Byte 8 as the Go code shapes it: `(b | 0x80) & 0xBF`. */
  function ShapeVariant(b: byte): (r: byte)
    ensures r >> 6 == 2                  // variant 10, section 4.1.1 of RFC 4122
    ensures r & 0x3F == b & 0x3F         // the low six bits are the random ones
  {
    (b | 0x80) & 0xBF
  }

  /** The bytes carry the version-4 nibble in byte 6 and the `10` variant
      bits in byte 8. */
  predicate IsVersion4(b: seq<byte>)
    requires IsBlock(b)
  {
    b[6] >> 4 == 4 && b[8] >> 6 == 2
  }

  /** Both shaping steps of `generateUUID`, byte 8 first, then byte 6. Only
      those two bytes change, and each keeps its random low bits. */
  function Shape(b: seq<byte>): (r: seq<byte>)
    requires IsBlock(b)
    ensures IsBlock(r) && IsVersion4(r)
    ensures r[6] & 0x0F == b[6] & 0x0F
    ensures r[8] & 0x3F == b[8] & 0x3F
    ensures forall i :: 0 <= i < 16 && i != 6 && i != 8 ==> r[i] == b[i]
  {
    var b8 := b[8 := ShapeVariant(b[8])];
    b8[6 := ShapeVersion(b8[6])]
  }

  /** The masks in the Go code are the usual ones written differently:
      keep the random bits, then set the fixed ones. */
  lemma ShapeIsMaskThenSet(b: byte)
    ensures ShapeVersion(b) == (b & 0x0F) | 0x40
    ensures ShapeVariant(b) == (b & 0x3F) | 0x80
  {
  }

  /** Shaping twice is shaping once, and the shaped blocks are exactly the
      blocks that already carry the version and variant fields. */
  lemma ShapeFixedPoints(b: seq<byte>)
    requires IsBlock(b)
    ensures Shape(Shape(b)) == Shape(b)
    ensures Shape(b) == b <==> IsVersion4(b)
  {
    var r := Shape(b);
    if IsVersion4(b) {
      ShapedByteIsFixed(b[6], b[8]);
      assert r == b;
    }
    ShapedByteIsFixed(r[6], r[8]);
    assert Shape(r) == r;
  }

  /** A byte already shaped is left alone by its shaping step. */
  lemma ShapedByteIsFixed(v: byte, w: byte)
    ensures v >> 4 == 4 ==> ShapeVersion(v) == v
    ensures w >> 6 == 2 ==> ShapeVariant(w) == w
  {
  }

  /** A character `hex.EncodeToString` can produce. */
  predicate IsLowerHex(c: char) {
    '0' <= c <= '9' || 'a' <= c <= 'f'
  }

  /** The lower-case digit for a nibble. */
  function HexDigit(n: byte): (c: char)
    requires n < 16
    ensures IsLowerHex(c)
  {
    if n == 0 then '0'
    else if n == 1 then '1'
    else if n == 2 then '2'
    else if n == 3 then '3'
    else if n == 4 then '4'
    else if n == 5 then '5'
    else if n == 6 then '6'
    else if n == 7 then '7'
    else if n == 8 then '8'
    else if n == 9 then '9'
    else if n == 10 then 'a'
    else if n == 11 then 'b'
    else if n == 12 then 'c'
    else if n == 13 then 'd'
    else if n == 14 then 'e'
    else 'f'
  }

  /** The nibble a lower-case hexadecimal digit stands for; `None` for any
      other character. */
  function DigitValue(c: char): (r: Option<byte>)
    ensures r.Some? <==> IsLowerHex(c)
    ensures r.Some? ==> r.value < 16 && HexDigit(r.value) == c
  {
    if c == '0' then Some(0)
    else if c == '1' then Some(1)
    else if c == '2' then Some(2)
    else if c == '3' then Some(3)
    else if c == '4' then Some(4)
    else if c == '5' then Some(5)
    else if c == '6' then Some(6)
    else if c == '7' then Some(7)
    else if c == '8' then Some(8)
    else if c == '9' then Some(9)
    else if c == 'a' then Some(10)
    else if c == 'b' then Some(11)
    else if c == 'c' then Some(12)
    else if c == 'd' then Some(13)
    else if c == 'e' then Some(14)
    else if c == 'f' then Some(15)
    else None
  }

  lemma DigitValueOfDigit(n: byte)
    requires n < 16
    ensures DigitValue(HexDigit(n)) == Some(n)
  {
  }

  /** The high nibble of a byte. */
  function High(x: byte): (h: byte)
    ensures h < 16
  {
    x >> 4
  }

  /** The low nibble of a byte. */
  function Low(x: byte): (l: byte)
    ensures l < 16
  {
    x & 0x0F
  }

  /** The byte made of two nibbles. */
  function FromNibbles(hi: byte, lo: byte): (x: byte)
    requires hi < 16 && lo < 16
    ensures High(x) == hi && Low(x) == lo
  {
    (hi << 4) | lo
  }

  /** A byte is put back together from its two nibbles. */
  lemma NibblesOfByte(x: byte)
    ensures FromNibbles(High(x), Low(x)) == x
  {
  }

  /** `hex.EncodeToString`: two lower-case digits per byte, high nibble
      first. */
  function HexEncode(b: seq<byte>): (s: string)
    ensures |s| == 2 * |b|
    ensures forall i :: 0 <= i < |s| ==> IsLowerHex(s[i])
  {
    if b == [] then ""
    else [HexDigit(High(b[0])), HexDigit(Low(b[0]))] + HexEncode(b[1..])
  }

  /** The inverse of `HexEncode`: `None` for an odd length or a character
      that is not a lower-case hexadecimal digit. */
  function HexDecode(s: string): (r: Option<seq<byte>>)
    ensures r.Some? ==> 2 * |r.value| == |s|
  {
    if s == [] then Some([])
    else if |s| == 1 then None
    else
      match (DigitValue(s[0]), DigitValue(s[1]), HexDecode(s[2..]))
      case (Some(hi), Some(lo), Some(rest)) => Some([FromNibbles(hi, lo)] + rest)
      case _ => None
  }

  /** Decoding the rendering of any bytes gives those bytes back. */
  lemma {:induction false} HexRoundTrip(b: seq<byte>)
    ensures HexDecode(HexEncode(b)) == Some(b)
  {
    if b != [] {
      var x := b[0];
      var hi, lo := High(x), Low(x);
      var s := HexEncode(b);
      assert s[0] == HexDigit(hi) && s[1] == HexDigit(lo);
      assert s[2..] == HexEncode(b[1..]);
      DigitValueOfDigit(hi);
      DigitValueOfDigit(lo);
      HexRoundTrip(b[1..]);
      NibblesOfByte(x);
      assert HexDecode(s) == Some([FromNibbles(hi, lo)] + b[1..]);
      assert b == [x] + b[1..];
    }
  }

  /** A string decodes to some bytes only when it is their rendering: the
      lower-case rendering is the one and only text of a byte sequence. */
  lemma {:induction false} HexDecodeOnlyRenderings(s: string, b: seq<byte>)
    requires HexDecode(s) == Some(b)
    ensures HexEncode(b) == s
  {
    if s != [] {
      var hi, lo := DigitValue(s[0]).value, DigitValue(s[1]).value;
      var rest := HexDecode(s[2..]).value;
      HexDecodeOnlyRenderings(s[2..], rest);
      var x := FromNibbles(hi, lo);
      assert b == [x] + rest;
      assert s == [s[0], s[1]] + s[2..];
    }
  }

  /** The identifier `generateUUID` stores in `cid` when the random source
      delivered `random`: thirty-two lower-case hexadecimal characters that
      decode to the shaped bytes. */
  function NewClientId(random: seq<byte>): (cid: string)
    requires IsBlock(random)
    ensures |cid| == 32
    ensures forall i :: 0 <= i < |cid| ==> IsLowerHex(cid[i])
    ensures HexDecode(cid) == Some(Shape(random))
  {
    HexRoundTrip(Shape(random));
    HexEncode(Shape(random))
  }
}
